=== FILE: README.md ===
# Hostpath CSI driver: volume and mount logic

A Dafny model of the controller and node services of a Container Storage
Interface (CSI) hostpath driver. A volume is a directory under
`/tmp/csi/hostpath/`; provisioning makes that directory, deleting it removes
the tree, publishing makes the workload's target path a symbolic link to it,
and unpublishing removes such a link.

The host filesystem is an immutable `map<Path, Node>` with nodes `Dir`, `File`
and `Symlink(text)`. A path is a sequence of components, and the root is
implicit. Every RPC is a pure function from a filesystem and a request to a
`Step`, which holds the RPC's result (a response or an `Error`) and the
filesystem it leaves behind. The driver keeps no other state: there is no
volume registry and no locking, and no request is validated.

Files:
- `results.dfy`: `Option` and `Result`.
- `paths.dfy`: paths as component sequences, and `ParsePath`, which splits path text on separators and drops empty components.
- `host_fs.dfy`: the filesystem and the `os` calls the driver makes (`Lstat`, `MkdirAll`, `RemoveAll`, `Symlink`/`Mkdir` as `CreateEntry`).
- `hostpath_csi.dfy`: the backing-path derivation, defined once, plus the error values and `Step`.
- `controller.dfy`: `pkg/hostpathcsi/controller.go`.
- `node.dfy`: `pkg/hostpathcsi/node.go`.
- `lifecycle.dfy`: properties that span both services.

The driver keeps no volume registry, takes no locks, counts no references to
a published volume and checks no name or capacity conflicts:
- a second create under a used name succeeds and echoes the new request (`CreateVolumeNoConflictCheck`);
- delete removes the backing directory even while a target still links to it (`DeleteLeavesLinkDangling`);
- unpublish removes any symbolic link at the target, whatever it points to;
- the node advertises one capability, of kind `UNKNOWN`.

## Model

| member | source | states |
|---|---|---|
| HostpathCsi.BackingPath | pkg/hostpathcsi/controller.go:23 | The backing directory of a volume is the backing root `/tmp/csi/hostpath` followed by the components of the volume id. Controller and node derive it from this one definition. |
| HostpathCsi.BackingPathOfName | pkg/hostpathcsi/node.go:22 | An id that is one plain name is backed by exactly `/tmp/csi/hostpath/<id>`. |
| HostFs.MkdirAll | pkg/hostpathcsi/controller.go:24 | On success the path is a directory, and only directories along the path were added; every existing entry is kept. On a well-formed filesystem it succeeds exactly when the walk meets no non-directory. It keeps the filesystem well formed. |
| HostFs.RemoveAll | pkg/hostpathcsi/controller.go:42 | It fails only for the root (simplified, see "## Left out") or when a non-directory is on the way. It removes nothing outside the subtree and adds nothing. On a well-formed filesystem nothing remains at or below the path, and the filesystem stays well formed. |
| HostFs.CreateEntry | pkg/hostpathcsi/node.go:55 | Symlink/mkdir succeeds exactly when the parent is a directory and the path is free; the new entry is then found at the path. |
| HostFs.ObstructedIff | pkg/hostpathcsi/controller.go:24-26 | A walk is obstructed exactly when some prefix of the path exists and is not a directory. |
| ControllerServer.CreateVolume | pkg/hostpathcsi/controller.go:19-35 | A successful create returns VolumeId = name, CapacityBytes = RequiredBytes and VolumeContext = Parameters, and the backing directory then exists. A failure returns CreateDirFailed with the filesystem unchanged. Only directories along the backing path are added. On a well-formed filesystem it succeeds exactly when nothing on the way is a non-directory. |
| ControllerServer.CreateVolumeIdempotent | pkg/hostpathcsi/controller.go:23-34 | Repeating a successful create gives the same response and the same filesystem. |
| ControllerServer.CreateVolumeNoConflictCheck | pkg/hostpathcsi/controller.go:23-34 | After a create, a second create with the same name but any capacity and parameters succeeds, echoes the second request, and changes nothing. |
| ControllerServer.CreateVolumeFailsIff | pkg/hostpathcsi/controller.go:24-26 | On a well-formed filesystem, create fails exactly when some prefix of the backing path exists as a non-directory. |
| ControllerServer.DeleteVolume | pkg/hostpathcsi/controller.go:38-47 | Delete succeeds unless a non-directory is on the way, and afterwards nothing is found at the backing path. A missing volume means no change. Nothing outside the backing subtree changes and nothing is added. On a well-formed filesystem nothing remains at or below the backing path. |
| ControllerServer.DeleteVolumeIdempotent | pkg/hostpathcsi/controller.go:41-46 | Deleting again after a successful delete succeeds and changes nothing. |
| ControllerServer.ControllerPublishVolume | pkg/hostpathcsi/controller.go:50-53 | Every request is refused with Unsupported. |
| ControllerServer.ControllerUnpublishVolume | pkg/hostpathcsi/controller.go:56-58 | Every request is refused with Unsupported. |
| ControllerServer.ControllerGetCapabilities | pkg/hostpathcsi/controller.go:61-73 | The capability list is exactly one entry, CREATE_DELETE_VOLUME. |
| ControllerServer.CapabilitiesMatchHandlers | pkg/hostpathcsi/controller.go:50-72 | Attach/detach succeeds exactly when PUBLISH_UNPUBLISH_VOLUME is advertised, that is, never. |
| NodeServer.NodePublishVolume | pkg/hostpathcsi/node.go:18-61 | Publish with the source check corrected: an ENOTDIR lookup of the backing directory is refused like ENOENT (see "## Findings"); otherwise it is the source's publish. If the backing directory is not found, publish fails with SourceMissing and changes nothing. It succeeds exactly when the backing directory is found, the target is not the root, and the target's parent can be made. On success the parent is a directory and the target is a link whose text is exactly the backing path text. A correct link already in place means success with no change. Only the target's subtree can change; only the target and directories above it can appear. A failed publish leaves the filesystem unchanged. Well-formedness is kept. |
| NodeServer.LinkTarget | pkg/hostpathcsi/node.go:29-60 | After the source check: it succeeds exactly when the parent can be made and the target is not the root; on success the link is in place. It is a no-op on a correct link. Entries outside the target's subtree are kept; only the target and directories above it can appear. A failure changes nothing. |
| NodeServer.NodePublishVolumeIdempotent | pkg/hostpathcsi/node.go:36-43 | After a successful corrected publish, publishing again returns the same result and filesystem exactly when the target does not lie strictly above the backing directory. Above it, the retry is refused with SourceMissing because the link now blocks the backing directory. |
| NodeServer.NodePublishVolumeAsWrittenIdempotent | pkg/hostpathcsi/node.go:36-43 | After a successful publish as the source writes it, publishing again returns the same result and filesystem, wherever the target lies. |
| NodeServer.NodePublishVolumeAsWrittenAgrees | pkg/hostpathcsi/node.go:25-27 | The as-written and corrected publishes give the same result and filesystem unless the backing lookup fails with ENOTDIR; in that case the corrected one fails. |
| NodeServer.NodePublishVolumeReplacesTarget | pkg/hostpathcsi/node.go:44-56 | A target that is a wrongly pointing link, a file or a directory is removed with everything below it and replaced by the correct link. |
| NodeServer.NodePublishVolumeKeepsDisjointSubtree | pkg/hostpathcsi/node.go:49-55 | Publish changes nothing in any subtree disjoint from the target, such as the backing directory and its contents. |
| NodeServer.NodePublishVolumeAsWritten | pkg/hostpathcsi/node.go:25-27 | As the source checks: it is refused only when the backing lookup fails with ENOENT, and it otherwise succeeds exactly when the target is not the root and the target's parent can be made. A failure changes nothing. |
| NodeServer.NodePublishVolumeAsWrittenAcceptsMissingSource | pkg/hostpathcsi/node.go:25-27 | Suppose the backing lookup fails with ENOTDIR, the target is not the root, its parent can be made, and it is not on the way to the backing directory. Then the as-written publish still succeeds, the backing lookup still fails with ENOTDIR, and publish leaves a link to a backing directory that cannot be reached. The corrected publish refuses with SourceMissing. |
| NodeServer.BackingUnderFileIsNotDir | pkg/hostpathcsi/node.go:22-25 | With a regular file at /tmp, the lookup of `/tmp/csi/hostpath/v` fails with ENOTDIR. This is a concrete input for the finding below. |
| NodeServer.PublishOverFileAtTmp | pkg/hostpathcsi/node.go:22-31 | On the filesystem with only a regular file at `/tmp`, publishing volume `v` at `/mnt` succeeds as written. `/mnt` becomes a link to `/tmp/csi/hostpath/v`, whose lookup still fails with ENOTDIR. The corrected publish refuses with SourceMissing and changes nothing. |
| NodeServer.NodeUnpublishVolume | pkg/hostpathcsi/node.go:63-86 | A symbolic link at the target is removed whatever it points to; exactly that entry goes on a well-formed filesystem. A missing target or a non-link means success with no change. ENOTDIR on the lookup means CheckTargetFailed with no change. Nothing outside the target's subtree changes; nothing is added. |
| NodeServer.RemovedLinkIsGone | pkg/hostpathcsi/node.go:70-75 | Removing a found link leaves nothing at the target. On a well-formed filesystem it removes exactly that one entry. |
| NodeServer.NodeUnpublishVolumeIdempotent | pkg/hostpathcsi/node.go:69-85 | Unpublishing again after a successful unpublish returns the same result and filesystem. |
| NodeServer.NodeUnpublishVolumeKeepsNonLinks | pkg/hostpathcsi/node.go:76-78 | Unpublish never removes or changes an entry that is not a symbolic link. |
| NodeServer.NodeUnpublishVolumeKeepsDisjointSubtree | pkg/hostpathcsi/node.go:72 | Unpublish changes nothing in any subtree disjoint from the target. |
| NodeServer.NodeStageVolume | pkg/hostpathcsi/node.go:129-132 | Stage always succeeds and changes nothing. |
| NodeServer.NodeUnstageVolume | pkg/hostpathcsi/node.go:135-138 | Unstage always succeeds and changes nothing. |
| NodeServer.NodeGetCapabilities | pkg/hostpathcsi/node.go:108-126 | The capability list has exactly one RPC capability, of kind UNKNOWN; it is not empty. |
| NodeServer.StagingNotAdvertised | pkg/hostpathcsi/node.go:111-132 | STAGE_UNSTAGE_VOLUME is not advertised, and stage and unstage leave the filesystem as it was. |
| NodeServer.NodeGetInfo | pkg/hostpathcsi/node.go:88-105 | The node id is "node1", and the topology has the single segment "topology.hostpath.csi/node" mapped to that id. |
| Lifecycle.CreateThenPublish | pkg/hostpathcsi/node.go:22-27 | Take a successful create, and a target that is not on the way to the backing directory and whose parent can be made. Publishing that volume there succeeds. The link leads to the backing directory, which is still a directory. |
| Lifecycle.UnpublishThenPublishRestores | pkg/hostpathcsi/node.go:63-86 | Unpublishing a correct link removes it, and republishing the same target gives back exactly the original filesystem. |
| Lifecycle.PublishRoundTrip | pkg/hostpathcsi/node.go:18-86 | Create, publish, write a file in the directory the link names, unpublish, publish again: each step succeeds. The target is absent after unpublish. The new link names the backing directory again, and the file is still found there. |
| Lifecycle.DeleteLeavesLinkDangling | pkg/hostpathcsi/controller.go:41-42 | Deleting a published volume succeeds and leaves the target link in place, dangling. Nothing is found at the backing path, and publishing again is refused with SourceMissing. |
| Lifecycle.DeleteEmptyIdRemovesEveryVolume | pkg/hostpathcsi/controller.go:41-42 | A successful delete of the empty volume id removes the backing root, so no volume's backing directory is found afterwards. |

## Left out

- `pkg/hostpathcsi/identity.go` and `cmd/main.go`: constant plugin metadata, socket removal and gRPC server set-up, with no behaviour beyond the constants.
- Logging and the text of error messages. Each error return is one `Error` value named after its call site.
- Symbolic links are never followed. `os.Stat` at node.go:25 and the stat inside `MkdirAll` are modelled by `Lstat`, so a link at the backing path counts as existing, even if dangling. A link in the middle of a path counts as a non-directory.
- Path text: `.` and `..` are ordinary names, relative paths are read from the root, and a trailing separator is dropped. `filepath.Dir` cleaning beyond that is not modelled.
- Trailing separator on a publish target: the model reads `/mnt/a/` as `/mnt/a`. A publish there over an existing directory therefore succeeds in the model, and `NodePublishVolumeReplacesTarget` applies. In the source, `filepath.Dir("/mnt/a/")` is `/mnt/a`, and node.go:49 removes that directory with its contents. The `Symlink` at node.go:55 then fails with ENOENT, because Linux does not create a non-directory under a name with a trailing slash. So the source's publish fails at node.go:56 after the target's data is gone.
- `os` failures other than ENOENT, ENOTDIR and "already exists": permissions, I/O errors, a failing `Readlink` (node.go:39-40), and the `0755` mode.
- HostFs.RemoveAll: for the root it fails and removes nothing. Go's `os.RemoveAll("/")` first deletes the root's children as far as permissions allow and only then fails on the root itself. A publish whose target is `/` therefore fails at node.go:49-50 in both, but the source empties the host filesystem on the way and the model leaves it unchanged. Permissions are not modelled, so "as far as permissions allow" has no counterpart here.
- Empty target text: `ParsePath("")` is the root, so an empty target fails at node.go:49-50 with RemoveTargetFailed. In the source `os.Lstat("")` fails with ENOENT, and the publish fails at node.go:55-56 instead. Both fail and change nothing; only the error differs.
- HostFs.MkdirAll: after its own `Mkdir` fails, Go's `os.MkdirAll` checks with a second `Lstat` whether a directory is there. That fallback covers a lost race, and also a last component `.` or `..`, which needs no concurrency. The model has no such fallback and reads `.` and `..` as plain names. For example, `CreateVolume` with name `.` on a host without `/tmp/csi/hostpath` adds a directory entry named `.` in the model. Go makes `/tmp/csi/hostpath`, its `Mkdir` of `/tmp/csi/hostpath/.` fails with EEXIST, the `Lstat` finds a directory, and the create succeeds without another entry.
- Concurrency, locks, a volume registry, `mountRefs` and conflict errors do not exist in the source.
- ControllerServer.CreateVolume: requires a present capacity range. The source dereferences it unchecked (controller.go:31) and would panic after making the directory.
- Request fields:
  - The handlers read create's name, capacity range and parameters (controller.go:23, :30-32), delete's volume id (controller.go:41), publish's volume id and target path (node.go:21-22), and unpublish's target path (node.go:66).
  - Kept but never read: the volume id and node id of the controller publish and unpublish requests, the volume id and staging path of the stage and unstage requests, and unpublish's volume id, which is only logged (node.go:64).
  - Left out: volume capabilities, the read-only flag, secrets and publish context. File contents are not modelled.
- The capability enums list a subset of the CSI RPC types, not all of them.
- NodeServer.NodePublishVolumeKeepsDisjointSubtree: it covers subtrees disjoint from the target only. A target at or above the backing directory removes it, and a target inside it adds a link there.

## Findings

| source | as written | input that shows it | evidently intended | confidence | as-written member | corrected member |
|---|---|---|---|---|---|---|
| pkg/hostpathcsi/node.go:25-27 | Publish is refused only when `os.Stat` of the backing path fails with "not exist" (ENOENT). ENOTDIR passes the check. | A regular file at `/tmp` (or any non-directory on the way to `/tmp/csi/hostpath/v`), volume id `v`, target `/mnt`. Publish succeeds, and `/mnt` becomes a link to a backing directory that cannot be reached. | Refuse the publish whenever the backing directory cannot be found, as the check's comment and its "does not exist" message say. | medium; not executed | NodeServer.PublishOverFileAtTmp | NodeServer.NodePublishVolume |

The correction has a price the source's check does not pay. A target strictly
above the backing directory replaces that directory's ancestor with the link,
so a retried publish finds ENOTDIR and is refused
(`NodeServer.NodePublishVolumeIdempotent`). The as-written publish simply
succeeds again (`NodeServer.NodePublishVolumeAsWrittenIdempotent`).

=== FILE: controller.dfy ===
/**
  The controller service (pkg/hostpathcsi/controller.go): provisioning a
  volume is making its backing directory, deleting it is removing that
  directory tree. There is no registry of volumes: the filesystem is the only
  state, and no request is validated.
*/
module ControllerServer {
  import opened Results
  import opened Paths
  import opened HostFs
  import opened HostpathCsi

  /** The protobuf int64 that carries byte counts. */
  newtype int64 = x: int | -0x8000_0000_0000_0000 <= x < 0x8000_0000_0000_0000

  datatype CapacityRange = CapacityRange(requiredBytes: int64, limitBytes: int64)

  /** The fields of a CreateVolume request the handler reads. */
  datatype CreateVolumeRequest = CreateVolumeRequest(
    name: string,
    capacityRange: Option<CapacityRange>,
    parameters: map<string, string>)

  datatype Volume = Volume(volumeId: string, capacityBytes: int64, volumeContext: map<string, string>)

  datatype CreateVolumeResponse = CreateVolumeResponse(volume: Volume)

  datatype DeleteVolumeRequest = DeleteVolumeRequest(volumeId: string)

  datatype DeleteVolumeResponse = DeleteVolumeResponse

  /** The identifying fields of an attach request; the handler reads none of them. */
  datatype ControllerPublishVolumeRequest = ControllerPublishVolumeRequest(volumeId: string, nodeId: string)

  datatype ControllerPublishVolumeResponse = ControllerPublishVolumeResponse(publishContext: map<string, string>)

  /** The identifying fields of a detach request; the handler reads none of them. */
  datatype ControllerUnpublishVolumeRequest = ControllerUnpublishVolumeRequest(volumeId: string, nodeId: string)

  datatype ControllerUnpublishVolumeResponse = ControllerUnpublishVolumeResponse

  /** The controller RPC kinds a plugin can advertise (ControllerServiceCapability.RPC.Type). */
  datatype ControllerRpcType =
    | UnknownRpc
    | CreateDeleteVolume
    | PublishUnpublishVolume
    | ListVolumes
    | GetCapacity
    | CreateDeleteSnapshot
    | ListSnapshots
    | CloneVolume
    | PublishReadonly
    | ExpandVolume

  datatype ControllerServiceCapability = Rpc(rpcType: ControllerRpcType)

  /**
    CreateVolume: make the backing directory (with any missing ancestors) and
    echo the request back as the volume. The capacity range must be present:
    the source dereferences it unchecked.
  */
  function CreateVolume(fs: FileSystem, req: CreateVolumeRequest): (r: Step<CreateVolumeResponse>)
    requires req.capacityRange.Some?
    ensures r.result.Success? ==> r.result.value.volume.volumeId == req.name
    ensures r.result.Success? ==> r.result.value.volume.capacityBytes == req.capacityRange.value.requiredBytes
    ensures r.result.Success? ==> r.result.value.volume.volumeContext == req.parameters
    ensures r.result.Success? ==> Lstat(r.fs, BackingPath(req.name)) == Found(Dir)
    ensures r.result.Failure? ==> r.result.error == CreateDirFailed && r.fs == fs
    ensures AddsDirsAlong(fs, r.fs, BackingPath(req.name))
    ensures WellFormed(fs) ==> (r.result.Success? <==> !Obstructed(fs, BackingPath(req.name)))
    ensures WellFormed(fs) ==> WellFormed(r.fs)
  {
    match MkdirAll(fs, BackingPath(req.name))
    case None => Step(Failure(CreateDirFailed), fs)
    case Some(fs') =>
      var volume := Volume(req.name, req.capacityRange.value.requiredBytes, req.parameters);
      Step(Success(CreateVolumeResponse(volume)), fs')
  }

  /** Creating the same volume again returns the same response and changes nothing. */
  lemma CreateVolumeIdempotent(fs: FileSystem, req: CreateVolumeRequest)
    requires req.capacityRange.Some?
    requires CreateVolume(fs, req).result.Success?
    ensures CreateVolume(CreateVolume(fs, req).fs, req) == CreateVolume(fs, req)
  {
  }

  /**
    Nothing remembers a created volume: a second create under the same name
    with another capacity and other parameters succeeds and echoes the new ones.
  */
  lemma CreateVolumeNoConflictCheck(fs: FileSystem, first: CreateVolumeRequest, second: CreateVolumeRequest)
    requires first.capacityRange.Some? && second.capacityRange.Some?
    requires first.name == second.name
    requires CreateVolume(fs, first).result.Success?
    ensures var r := CreateVolume(CreateVolume(fs, first).fs, second);
      && r.result.Success?
      && r.result.value.volume == Volume(second.name, second.capacityRange.value.requiredBytes, second.parameters)
      && r.fs == CreateVolume(fs, first).fs
  {
  }

  /**
    On a well-formed filesystem, create fails exactly when some prefix of the
    backing path exists and is not a directory.
  */
  lemma CreateVolumeFailsIff(fs: FileSystem, req: CreateVolumeRequest)
    requires req.capacityRange.Some?
    requires WellFormed(fs)
    ensures CreateVolume(fs, req).result.Failure? <==> NonDirOnPath(fs, BackingPath(req.name))
  {
    ObstructedIff(fs, BackingPath(req.name));
  }

  /** DeleteVolume: remove the backing directory and everything below it. */
  function DeleteVolume(fs: FileSystem, req: DeleteVolumeRequest): (r: Step<DeleteVolumeResponse>)
    ensures r.result.Success? <==> !Lstat(fs, BackingPath(req.volumeId)).NotDir?
    ensures r.result.Failure? ==> r.result.error == DeleteDirFailed && r.fs == fs
    ensures r.result.Success? ==> Lstat(r.fs, BackingPath(req.volumeId)).NotExist?
    ensures Lstat(fs, BackingPath(req.volumeId)).NotExist? ==> r.fs == fs
    ensures forall q :: q in fs && !(BackingPath(req.volumeId) <= q) ==> q in r.fs && r.fs[q] == fs[q]
    ensures forall q :: q in r.fs ==> q in fs && r.fs[q] == fs[q]
    ensures WellFormed(fs) ==> forall q :: q in r.fs && r.result.Success? ==> !(BackingPath(req.volumeId) <= q)
    ensures WellFormed(fs) ==> WellFormed(r.fs)
  {
    var backing := BackingPath(req.volumeId);
    match RemoveAll(fs, backing)
    case None => Step(Failure(DeleteDirFailed), fs)
    case Some(fs') =>
      DeleteLeavesNothing(fs, fs', backing);
      Step(Success(DeleteVolumeResponse), fs')
  }

  /** After a removal that kept every entry outside `p`, nothing is found at `p`. */
  lemma DeleteLeavesNothing(fs: FileSystem, fs': FileSystem, p: Path)
    requires p != [] && RemoveAll(fs, p) == Some(fs')
    ensures Lstat(fs', p).NotExist?
  {
    forall q | q <= Parent(p) && q != []
      ensures Entry(fs, q) == Entry(fs', q)
    {
      PrefixTransitive(q, Parent(p), p);
    }
    LstatFrame(fs, fs', Parent(p));
  }

  /** Deleting twice is deleting once: the second call succeeds and changes nothing. */
  lemma DeleteVolumeIdempotent(fs: FileSystem, req: DeleteVolumeRequest)
    requires DeleteVolume(fs, req).result.Success?
    ensures DeleteVolume(DeleteVolume(fs, req).fs, req) == DeleteVolume(fs, req)
  {
  }

  /** Attach is not part of this driver: every request is refused. */
  function ControllerPublishVolume(req: ControllerPublishVolumeRequest): (r: Result<ControllerPublishVolumeResponse, Error>)
    ensures r.Failure? && r.error == Unsupported
  {
    Failure(Unsupported)
  }

  /** Detach is not part of this driver: every request is refused. */
  function ControllerUnpublishVolume(req: ControllerUnpublishVolumeRequest): (r: Result<ControllerUnpublishVolumeResponse, Error>)
    ensures r.Failure? && r.error == Unsupported
  {
    Failure(Unsupported)
  }

  /** The controller advertises volume creation and deletion, and nothing else. */
  function ControllerGetCapabilities(): (caps: seq<ControllerServiceCapability>)
    ensures forall c :: c in caps <==> c == Rpc(CreateDeleteVolume)
    ensures |caps| == 1
  {
    [Rpc(CreateDeleteVolume)]
  }

  /**
    The advertised capabilities agree with the handlers: attach and detach are
    not advertised and never succeed.
  */
  lemma CapabilitiesMatchHandlers(publish: ControllerPublishVolumeRequest, unpublish: ControllerUnpublishVolumeRequest)
    ensures ControllerPublishVolume(publish).Success? <==> Rpc(PublishUnpublishVolume) in ControllerGetCapabilities()
    ensures ControllerUnpublishVolume(unpublish).Success? <==> Rpc(PublishUnpublishVolume) in ControllerGetCapabilities()
  {
  }
}

=== FILE: host_fs.dfy ===
/**
  The host filesystem the driver works on, and the few `os` calls it makes
  (Lstat/Stat, MkdirAll, RemoveAll, Symlink), as pure transitions.

  Symbolic links are never followed: a link met in the middle of a path is
  treated like any other non-directory, and a lookup of a link yields the link
  itself. Permissions, ownership and file contents are not modelled.
*/
module HostFs {
  import opened Results
  import opened Paths

  /** What a path can name: a directory, a regular file, or a symbolic link holding its link text. */
  datatype Node = Dir | File | Symlink(text: string)

  /** Every entry below the root, keyed by its path; the root is implicit and always a directory. */
  type FileSystem = map<Path, Node>

  /** The outcome of looking a path up: the entry, ENOENT, or ENOTDIR. */
  datatype Lookup = Found(node: Node) | NotExist | NotDir

  /** The entry at `p`, if any, without looking at its ancestors. */
  function Entry(fs: FileSystem, p: Path): Option<Node>
  {
    if p in fs then Some(fs[p]) else None
  }

  /** Every entry hangs off a directory: its parent is the root or a directory entry. */
  predicate WellFormed(fs: FileSystem)
  {
    forall p :: p in fs ==> p != [] && (|p| == 1 || (Parent(p) in fs && fs[Parent(p)] == Dir))
  }

  /**
    os.Lstat: walk the components from the root. A missing component gives
    ENOENT, a component that is not a directory gives ENOTDIR.
  */
  function Lstat(fs: FileSystem, p: Path): (r: Lookup)
    ensures r.Found? && p != [] ==> p in fs && r.node == fs[p]
    ensures p == [] ==> r == Found(Dir)
    decreases |p|
  {
    if p == [] then Found(Dir)
    else match Lstat(fs, Parent(p))
      case Found(n) => if !n.Dir? then NotDir else if p in fs then Found(fs[p]) else NotExist
      case NotExist => NotExist
      case NotDir => NotDir
  }

  /** The walk to `p` runs into something that is not a directory, on the way or at `p` itself. */
  predicate Obstructed(fs: FileSystem, p: Path)
  {
    match Lstat(fs, p)
    case Found(n) => !n.Dir?
    case NotDir => true
    case NotExist => false
  }

  /** `fs'` keeps every entry of `fs` and adds only directories, all of them prefixes of `p`. */
  predicate AddsDirsAlong(fs: FileSystem, fs': FileSystem, p: Path)
  {
    && (forall q :: q in fs ==> q in fs' && fs'[q] == fs[q])
    && (forall q :: q in fs' && q !in fs ==> q <= p && fs'[q] == Dir)
  }

  /** `fs'` holds exactly the entries of `fs` at or below `b`. */
  ghost predicate SubtreeUnchanged(fs: FileSystem, fs': FileSystem, b: Path)
  {
    forall q :: b <= q ==> Entry(fs, q) == Entry(fs', q)
  }

  /** `fs` with `p` and everything below it gone. */
  function RemoveSubtree(fs: FileSystem, p: Path): (r: FileSystem)
    ensures forall q :: q in r <==> q in fs && !(p <= q)
    ensures forall q :: q in r ==> r[q] == fs[q]
  {
    map q | q in fs && !(p <= q) :: fs[q]
  }

  /** A lookup reads only the entries at the path's own prefixes. */
  lemma {:induction false} LstatFrame(fs: FileSystem, fs': FileSystem, p: Path)
    requires forall q :: q <= p && q != [] ==> Entry(fs, q) == Entry(fs', q)
    ensures Lstat(fs, p) == Lstat(fs', p)
    decreases |p|
  {
    if p != [] {
      forall q | q <= Parent(p) && q != []
        ensures Entry(fs, q) == Entry(fs', q)
      {
        PrefixTransitive(q, Parent(p), p);
      }
      LstatFrame(fs, fs', Parent(p));
      assert Entry(fs, p) == Entry(fs', p);
    }
  }

  /** Changing an entry that is not on the way to `p` does not change the lookup of `p`. */
  lemma LstatUpdate(fs: FileSystem, k: Path, n: Node, p: Path)
    requires !(k <= p)
    ensures Lstat(fs[k := n], p) == Lstat(fs, p)
  {
    forall q | q <= p && q != []
      ensures Entry(fs[k := n], q) == Entry(fs, q)
    {
      if q == k {
        PrefixTransitive(k, q, p);
      }
    }
    LstatFrame(fs[k := n], fs, p);
  }

  /** Removing a subtree that `p` does not lie in does not change the lookup of `p`. */
  lemma LstatRemoveSubtree(fs: FileSystem, k: Path, p: Path)
    requires !(k <= p)
    ensures Lstat(RemoveSubtree(fs, k), p) == Lstat(fs, p)
  {
    forall q | q <= p && q != []
      ensures Entry(RemoveSubtree(fs, k), q) == Entry(fs, q)
    {
      if k <= q {
        PrefixTransitive(k, q, p);
      }
    }
    LstatFrame(RemoveSubtree(fs, k), fs, p);
  }

  /**
    A lookup that reaches an entry (found, or ENOTDIR) gives the same answer
    in any filesystem that keeps the entries along the path.
  */
  lemma {:induction false} LstatKeptAlong(fs: FileSystem, fs': FileSystem, p: Path)
    requires forall q :: q <= p && q in fs ==> q in fs' && fs'[q] == fs[q]
    requires !Lstat(fs, p).NotExist?
    ensures Lstat(fs', p) == Lstat(fs, p)
    decreases |p|
  {
    if p != [] {
      forall q | q <= Parent(p) && q in fs
        ensures q in fs' && fs'[q] == fs[q]
      {
        PrefixTransitive(q, Parent(p), p);
      }
      LstatKeptAlong(fs, fs', Parent(p));
    }
  }

  /**
    A change that keeps every entry outside the subtree at `k` and adds nothing
    does not change the lookup of a path outside that subtree.
  */
  lemma LstatOutsideRemoval(fs: FileSystem, fs': FileSystem, k: Path, p: Path)
    requires forall q :: q in fs && !(k <= q) ==> q in fs' && fs'[q] == fs[q]
    requires forall q :: q in fs' ==> q in fs && fs'[q] == fs[q]
    requires !(k <= p)
    ensures Lstat(fs', p) == Lstat(fs, p)
  {
    forall q | q <= p && q != []
      ensures Entry(fs, q) == Entry(fs', q)
    {
      if k <= q {
        PrefixTransitive(k, q, p);
      }
    }
    LstatFrame(fs, fs', p);
  }

  /** In a well-formed filesystem everything strictly above an entry is a directory. */
  lemma WellFormedAncestorIsDir(fs: FileSystem, p: Path, q: Path)
    requires WellFormed(fs)
    requires p != [] && p < q && q in fs
    ensures p in fs && fs[p] == Dir
  {
    var c := q[..|p| + 1];
    assert c <= q;
    WellFormedNothingBelow(fs, c, q);
    assert Parent(c) == p;
  }

  /** A found path was reached through entries at each of its prefixes. */
  lemma {:induction false} LstatFoundAlong(fs: FileSystem, q: Path, p: Path)
    requires q <= p && q != []
    requires Lstat(fs, p).Found?
    ensures q in fs
    decreases |p|
  {
    if q != p {
      assert q <= Parent(p);
      LstatFoundAlong(fs, q, Parent(p));
    }
  }

  /** Looking up anything strictly below a found non-directory gives ENOTDIR. */
  lemma {:induction false} LstatBelowNonDir(fs: FileSystem, q: Path, p: Path)
    requires q < p
    requires Lstat(fs, q).Found? && !Lstat(fs, q).node.Dir?
    ensures Lstat(fs, p).NotDir?
    decreases |p|
  {
    if q != Parent(p) {
      assert q < Parent(p);
      LstatBelowNonDir(fs, q, Parent(p));
    }
  }

  /** In a well-formed filesystem every entry is reachable: its lookup finds it. */
  lemma {:induction false} WellFormedLstat(fs: FileSystem, p: Path)
    requires WellFormed(fs)
    requires p in fs
    ensures Lstat(fs, p) == Found(fs[p])
    decreases |p|
  {
    if |p| > 1 {
      WellFormedLstat(fs, Parent(p));
    }
  }

  /** In a well-formed filesystem a missing directory has nothing below it. */
  lemma {:induction false} WellFormedNothingBelow(fs: FileSystem, p: Path, q: Path)
    requires WellFormed(fs)
    requires p != [] && p <= q && q in fs
    ensures p in fs
    decreases |q|
  {
    if p != q {
      assert p <= Parent(q);
      WellFormedNothingBelow(fs, p, Parent(q));
    }
  }

  /** Some prefix of `p`, or `p` itself, exists and is not a directory. */
  ghost predicate NonDirOnPath(fs: FileSystem, p: Path)
  {
    exists i :: 1 <= i <= |p| && p[..i] in fs && !fs[p[..i]].Dir?
  }

  /** A non-directory on the way to `p` lies on the way to its parent or is `p` itself. */
  lemma NonDirOnPathStep(fs: FileSystem, p: Path)
    requires p != []
    ensures NonDirOnPath(fs, p) <==> NonDirOnPath(fs, Parent(p)) || (p in fs && !fs[p].Dir?)
  {
    var q := Parent(p);
    if NonDirOnPath(fs, p) && !(p in fs && !fs[p].Dir?) {
      var i :| 1 <= i <= |p| && p[..i] in fs && !fs[p[..i]].Dir?;
      assert p[..|p|] == p;
      assert q[..i] == p[..i];
    }
    if NonDirOnPath(fs, q) {
      var i :| 1 <= i <= |q| && q[..i] in fs && !fs[q[..i]].Dir?;
      assert p[..i] == q[..i];
    }
    if p in fs && !fs[p].Dir? {
      assert p[..|p|] == p;
    }
  }

  /**
    In a well-formed filesystem the walk to `p` is obstructed exactly when some
    prefix of `p` exists and is not a directory.
  */
  lemma {:induction false} ObstructedIff(fs: FileSystem, p: Path)
    requires WellFormed(fs)
    ensures Obstructed(fs, p) <==> NonDirOnPath(fs, p)
    decreases |p|
  {
    if p != [] {
      ObstructedIff(fs, Parent(p));
      NonDirOnPathStep(fs, p);
      if p in fs {
        WellFormedLstat(fs, p);
      }
    }
  }

  /** Adding directories never puts a non-directory in the way of a path. */
  lemma {:induction false} AddedDirsKeepClear(fs: FileSystem, fs': FileSystem, p: Path, q: Path)
    requires WellFormed(fs) && AddsDirsAlong(fs, fs', p)
    requires !Obstructed(fs, q)
    ensures !Obstructed(fs', q)
    decreases |q|
  {
    if q != [] {
      AddedDirsKeepClear(fs, fs', p, Parent(q));
      if q in fs && !fs[q].Dir? {
        WellFormedLstat(fs, q);
      }
    }
  }

  /** One `mkdir` or `symlink` call: create `n` at `p`; fails if `p` exists or its parent is not a directory. */
  function CreateEntry(fs: FileSystem, p: Path, n: Node): (r: Option<FileSystem>)
    ensures r.Some? <==> p != [] && Lstat(fs, Parent(p)) == Found(Dir) && p !in fs
    ensures r.Some? ==> Lstat(r.value, p) == Found(n) && r.value == fs[p := n]
    ensures r.Some? && WellFormed(fs) ==> WellFormed(r.value)
  {
    if p != [] && Lstat(fs, Parent(p)) == Found(Dir) && p !in fs then
      LstatUpdate(fs, p, n, Parent(p));
      Some(fs[p := n])
    else
      None
  }

  /**
    os.MkdirAll, following Go's algorithm: done if `p` already is a directory,
    an error if it is something else, otherwise make the parent and then `p`.
  */
  function MkdirAll(fs: FileSystem, p: Path): (r: Option<FileSystem>)
    ensures r.Some? ==> Lstat(r.value, p) == Found(Dir) && AddsDirsAlong(fs, r.value, p)
    ensures WellFormed(fs) ==> (r.Some? <==> !Obstructed(fs, p))
    ensures WellFormed(fs) && r.Some? ==> WellFormed(r.value)
    decreases |p|
  {
    if p == [] then Some(fs)
    else match Lstat(fs, p)
      case Found(n) => if n.Dir? then Some(fs) else None
      case _ =>
        match MkdirAll(fs, Parent(p))
        case None => None
        case Some(fs1) =>
          MkdirAllStep(fs, fs1, p);
          CreateEntry(fs1, p, Dir)
  }

  /** The last step of MkdirAll: once the parent is made, `p` can be made unless it is in the way. */
  lemma MkdirAllStep(fs: FileSystem, fs1: FileSystem, p: Path)
    requires p != [] && !Lstat(fs, p).Found?
    requires Lstat(fs1, Parent(p)) == Found(Dir) && AddsDirsAlong(fs, fs1, Parent(p))
    ensures p in fs1 ==> p in fs
    ensures WellFormed(fs) ==> p !in fs1
  {
    if WellFormed(fs) && p in fs {
      WellFormedLstat(fs, p);
    }
  }

  /**
    os.RemoveAll: removing a path that does not exist succeeds and does nothing;
    a non-directory on the way is an error. The root is simplified to an error
    that removes nothing, although os.RemoveAll first deletes the root's
    children as far as it may and only then fails on the root itself.
  */
  function RemoveAll(fs: FileSystem, p: Path): (r: Option<FileSystem>)
    ensures r.Some? <==> p != [] && !Lstat(fs, p).NotDir?
    ensures r.Some? ==> forall q :: q in fs && !(p <= q) ==> q in r.value && r.value[q] == fs[q]
    ensures r.Some? ==> forall q :: q in r.value ==> q in fs && r.value[q] == fs[q]
    ensures r.Some? && WellFormed(fs) ==> forall q :: q in r.value ==> !(p <= q)
    ensures r.Some? && WellFormed(fs) ==> WellFormed(r.value)
  {
    if p == [] then None
    else match Lstat(fs, p)
      case NotExist =>
        RemoveAbsent(fs, p);
        Some(fs)
      case NotDir => None
      case Found(_) =>
        RemoveSubtreeWellFormed(fs, p);
        Some(RemoveSubtree(fs, p))
  }

  /** In a well-formed filesystem, a path whose lookup fails with ENOENT has nothing at or below it. */
  lemma RemoveAbsent(fs: FileSystem, p: Path)
    requires p != [] && Lstat(fs, p).NotExist?
    ensures WellFormed(fs) ==> forall q :: q in fs ==> !(p <= q)
  {
    if WellFormed(fs) {
      forall q | q in fs && p <= q
        ensures false
      {
        WellFormedNothingBelow(fs, p, q);
        WellFormedLstat(fs, p);
      }
    }
  }

  /** Cutting off a whole subtree keeps a filesystem well formed. */
  lemma RemoveSubtreeWellFormed(fs: FileSystem, p: Path)
    ensures WellFormed(fs) ==> WellFormed(RemoveSubtree(fs, p))
  {
    if WellFormed(fs) {
      var r := RemoveSubtree(fs, p);
      forall q | q in r && |q| > 1
        ensures Parent(q) in r
      {
        if p <= Parent(q) {
          PrefixTransitive(p, Parent(q), q);
        }
      }
    }
  }
}

=== FILE: hostpath_csi.dfy ===
/**
  What the controller and node services share: where a volume's backing
  directory lives, the errors the handlers return, and the shape of a handler's
  outcome. The source spells the backing path out three times
  (controller.go:23, controller.go:41, node.go:22); here it is defined once.
*/
module HostpathCsi {
  import opened Results
  import opened Paths
  import opened HostFs

  /** The text every backing path starts with. */
  const BackingRootText: string := "/tmp/csi/hostpath/"

  /** The directory that text names. */
  const BackingRoot: Path := ["tmp", "csi", "hostpath"]

  /** The backing path of a volume as the driver writes it, and as publish stores it as link text. */
  function BackingPathText(volumeId: string): string
  {
    BackingRootText + volumeId
  }

  /** The directory that backs a volume: the id's components below the backing root. */
  function BackingPath(volumeId: string): (p: Path)
    ensures p == BackingRoot + ParsePath(volumeId)
    ensures BackingRoot <= p && |p| >= |BackingRoot|
  {
    BackingRootJoins();
    ParseJoinThen(BackingRoot, volumeId);
    assert Join(BackingRoot) + "/" + volumeId == BackingPathText(volumeId);
    ParsePath(BackingPathText(volumeId))
  }

  /** The backing root's components are names, and joining them gives the backing root text. */
  lemma BackingRootJoins()
    ensures ValidComponents(BackingRoot)
    ensures Join(BackingRoot) + "/" == BackingRootText
  {
    assert BackingRoot[1..] == ["csi", "hostpath"];
    assert BackingRoot[2..] == ["hostpath"];
    assert Join(BackingRoot[2..]) == "/hostpath" by {
      assert BackingRoot[2..][1..] == [];
    }
    assert Join(BackingRoot[1..]) == "/csi/hostpath";
    assert Join(BackingRoot) == "/tmp/csi/hostpath";
  }

  /** A volume whose id is one plain name is backed by that name directly under the backing root. */
  lemma BackingPathOfName(volumeId: string)
    requires volumeId != [] && '/' !in volumeId
    ensures BackingPath(volumeId) == BackingRoot + [volumeId]
  {
    ParseName(volumeId);
  }

  /**
    Why a handler failed; one value per error return of the source (the
    message text is not modelled).
  */
  datatype Error =
    | SourceMissing        // node.go:26
    | ParentDirFailed      // node.go:32
    | RemoveTargetFailed   // node.go:50
    | SymlinkFailed        // node.go:56
    | RemoveSymlinkFailed  // node.go:73
    | CheckTargetFailed    // node.go:82
    | CreateDirFailed      // controller.go:25
    | DeleteDirFailed      // controller.go:43
    | Unsupported          // controller.go:52, controller.go:57

  /** What a handler returns together with the filesystem it leaves behind. */
  datatype Step<+R> = Step(result: Result<R, Error>, fs: FileSystem)
}

=== FILE: lifecycle.dfy ===
/**
  Properties that span the controller and the node service: a volume's
  lifecycle from creation through publishing, unpublishing and republishing
  to deletion, all on one host filesystem.
*/
module Lifecycle {
  import opened Results
  import opened Paths
  import opened HostFs
  import opened HostpathCsi
  import C = ControllerServer
  import N = NodeServer

  /** Where the link at `target` leads, read as a path. */
  function LinkDestination(fs: FileSystem, target: Path): Option<Path>
  {
    match Lstat(fs, target)
    case Found(Symlink(text)) => Some(ParsePath(text))
    case _ => None
  }

  /** Taking an entry out and putting it back gives the filesystem it came from. */
  lemma RestoreEntry(fs: FileSystem, p: Path)
    requires p in fs
    ensures (fs - {p})[p := fs[p]] == fs
  {
    var back := (fs - {p})[p := fs[p]];
    assert back.Keys == fs.Keys;
    assert forall q :: q in fs ==> back[q] == fs[q];
  }

  /**
    A created volume can be published to any target whose parent can be made
    and that does not lie on the way to the backing directory; afterwards the
    link leads to the backing directory, which is still a directory.
  */
  lemma CreateThenPublish(fs: FileSystem, create: C.CreateVolumeRequest, targetPath: string)
    requires WellFormed(fs)
    requires create.capacityRange.Some? && C.CreateVolume(fs, create).result.Success?
    requires ParsePath(targetPath) != [] && !Obstructed(fs, Parent(ParsePath(targetPath)))
    requires !(ParsePath(targetPath) <= BackingPath(create.name))
    ensures var created := C.CreateVolume(fs, create).fs;
      var r := N.NodePublishVolume(created, N.NodePublishVolumeRequest(create.name, targetPath));
      && r.result.Success?
      && LinkDestination(r.fs, ParsePath(targetPath)) == Some(BackingPath(create.name))
      && Lstat(r.fs, BackingPath(create.name)) == Found(Dir)
  {
    var target, backing := ParsePath(targetPath), BackingPath(create.name);
    var created := C.CreateVolume(fs, create).fs;
    AddedDirsKeepClear(fs, created, backing, Parent(target));
    var r := N.NodePublishVolume(created, N.NodePublishVolumeRequest(create.name, targetPath));
    forall q | q <= backing && q in created
      ensures q in r.fs && r.fs[q] == created[q]
    {
      if target <= q {
        PrefixTransitive(target, q, backing);
      }
    }
    LstatKeptAlong(created, r.fs, backing);
  }

  /**
    Unpublishing a correct link and publishing the same target again gives
    back exactly the filesystem it started from.
  */
  lemma UnpublishThenPublishRestores(fs: FileSystem, publish: N.NodePublishVolumeRequest)
    requires WellFormed(fs)
    requires Lstat(fs, BackingPath(publish.volumeId)).Found?
    requires Lstat(fs, ParsePath(publish.targetPath)) == Found(Symlink(BackingPathText(publish.volumeId)))
    requires !(ParsePath(publish.targetPath) <= BackingPath(publish.volumeId))
    ensures var unpublished := N.NodeUnpublishVolume(fs, N.NodeUnpublishVolumeRequest(publish.volumeId, publish.targetPath));
      && unpublished.result.Success?
      && Lstat(unpublished.fs, ParsePath(publish.targetPath)).NotExist?
      && N.NodePublishVolume(unpublished.fs, publish) == Step(Success(N.NodePublishVolumeResponse), fs)
  {
    var target, backing := ParsePath(publish.targetPath), BackingPath(publish.volumeId);
    var link := Symlink(BackingPathText(publish.volumeId));
    var rest := fs - {target};
    assert N.NodeUnpublishVolume(fs, N.NodeUnpublishVolumeRequest(publish.volumeId, publish.targetPath)).fs == rest;
    assert Lstat(rest, backing).Found? && Lstat(rest, Parent(target)) == Found(Dir) && Lstat(rest, target).NotExist? by {
      N.RemovedLinkIsGone(fs, RemoveSubtree(fs, target), target);
      assert rest == RemoveSubtree(fs, target);
      LstatRemoveSubtree(fs, target, backing);
      LstatRemoveSubtree(fs, target, Parent(target));
    }
    assert N.LinkTarget(rest, BackingPathText(publish.volumeId), target) == Step(Success(N.NodePublishVolumeResponse), rest[target := link]) by {
      assert MkdirAll(rest, Parent(target)) == Some(rest);
    }
    assert target in fs && fs[target] == link;
    RestoreEntry(fs, target);
  }

  /**
    The round trip: create a volume, publish it, write a file in the directory
    the link names, unpublish, publish again to the same target. The new link
    names that directory again and the file is still there, because neither
    unpublish nor publish touches the backing directory.
  */
  lemma PublishRoundTrip(fs: FileSystem, create: C.CreateVolumeRequest, targetPath: string, name: string)
    requires WellFormed(fs)
    requires create.capacityRange.Some? && C.CreateVolume(fs, create).result.Success?
    requires ParsePath(targetPath) != [] && !Obstructed(fs, Parent(ParsePath(targetPath)))
    requires !(ParsePath(targetPath) <= BackingPath(create.name)) && !(BackingPath(create.name) <= ParsePath(targetPath))
    requires BackingPath(create.name) + [name] !in fs
    ensures var target := ParsePath(targetPath);
      var publish := N.NodePublishVolumeRequest(create.name, targetPath);
      var unpublish := N.NodeUnpublishVolumeRequest(create.name, targetPath);
      var published := N.NodePublishVolume(C.CreateVolume(fs, create).fs, publish);
      && published.result.Success?
      && LinkDestination(published.fs, target) == Some(BackingPath(create.name))
      && var written := CreateEntry(published.fs, BackingPath(create.name) + [name], File);
      && written.Some?
      && var unpublished := N.NodeUnpublishVolume(written.value, unpublish);
      && unpublished.result.Success?
      && Lstat(unpublished.fs, target).NotExist?
      && var republished := N.NodePublishVolume(unpublished.fs, publish);
      && republished.result.Success?
      && LinkDestination(republished.fs, target) == Some(BackingPath(create.name))
      && Lstat(republished.fs, BackingPath(create.name) + [name]) == Found(File)
  {
    var target, backing := ParsePath(targetPath), BackingPath(create.name);
    var file := backing + [name];
    var publish := N.NodePublishVolumeRequest(create.name, targetPath);
    var created := C.CreateVolume(fs, create).fs;
    CreateThenPublish(fs, create, targetPath);
    var published := N.NodePublishVolume(created, publish);

    assert file !in published.fs by {
      assert file !in created by {
        assert !(file <= backing);
      }
      if file in published.fs {
        PrefixTransitive(backing, file, Parent(target));
        PrefixTransitive(backing, Parent(target), target);
      }
    }
    assert !(file <= target) by {
      if file <= target {
        PrefixTransitive(backing, file, target);
      }
    }
    assert !(file <= backing);
    var written := CreateEntry(published.fs, file, File).value;
    LstatUpdate(published.fs, file, File, target);
    LstatUpdate(published.fs, file, File, backing);
    UnpublishThenPublishRestores(written, publish);
  }

  /**
    Deleting a published volume leaves the link in place, now leading
    nowhere, and publishing the volume again is refused.
  */
  lemma DeleteLeavesLinkDangling(fs: FileSystem, publish: N.NodePublishVolumeRequest)
    requires N.NodePublishVolume(fs, publish).result.Success?
    requires !(ParsePath(publish.targetPath) <= BackingPath(publish.volumeId))
    requires !(BackingPath(publish.volumeId) <= ParsePath(publish.targetPath))
    ensures var published := N.NodePublishVolume(fs, publish).fs;
      var deleted := C.DeleteVolume(published, C.DeleteVolumeRequest(publish.volumeId));
      && deleted.result.Success?
      && Lstat(deleted.fs, ParsePath(publish.targetPath)) == Found(Symlink(BackingPathText(publish.volumeId)))
      && Lstat(deleted.fs, BackingPath(publish.volumeId)).NotExist?
      && N.NodePublishVolume(deleted.fs, publish) == Step(Failure(SourceMissing), deleted.fs)
  {
    var target, backing := ParsePath(publish.targetPath), BackingPath(publish.volumeId);
    var published := N.NodePublishVolume(fs, publish).fs;
    N.NodePublishVolumeKeepsDisjointSubtree(fs, publish, backing);
    assert Lstat(published, backing).Found? by {
      LstatKeptAlong(fs, published, backing);
    }
    var deleted := C.DeleteVolume(published, C.DeleteVolumeRequest(publish.volumeId));
    forall q | q <= target && q in published
      ensures q in deleted.fs && deleted.fs[q] == published[q]
    {
      if backing <= q {
        PrefixTransitive(backing, q, target);
      }
    }
    LstatKeptAlong(published, deleted.fs, target);
  }

  /**
    No request is validated: deleting the volume with the empty id removes the
    backing root itself, and with it every volume.
  */
  lemma DeleteEmptyIdRemovesEveryVolume(fs: FileSystem, volumeId: string)
    requires WellFormed(fs)
    requires C.DeleteVolume(fs, C.DeleteVolumeRequest("")).result.Success?
    ensures !Lstat(C.DeleteVolume(fs, C.DeleteVolumeRequest("")).fs, BackingPath(volumeId)).Found?
  {
    var deleted := C.DeleteVolume(fs, C.DeleteVolumeRequest("")).fs;
    assert BackingPath("") == BackingRoot;
  }
}

=== FILE: node.dfy ===
/**
  The node service (pkg/hostpathcsi/node.go). Publishing a volume makes the
  target path a symbolic link to the volume's backing directory; unpublishing
  removes a symbolic link at the target, whatever it points to, and leaves
  anything else alone.
*/
module NodeServer {
  import opened Results
  import opened Paths
  import opened HostFs
  import opened HostpathCsi

  /** The fields of a NodePublishVolume request the handler reads. */
  datatype NodePublishVolumeRequest = NodePublishVolumeRequest(volumeId: string, targetPath: string)

  datatype NodePublishVolumeResponse = NodePublishVolumeResponse

  /** The identifying fields of a NodeUnpublishVolume request; the handler reads the target path and only logs the volume id. */
  datatype NodeUnpublishVolumeRequest = NodeUnpublishVolumeRequest(volumeId: string, targetPath: string)

  datatype NodeUnpublishVolumeResponse = NodeUnpublishVolumeResponse

  /** The identifying fields of a stage request; the handler reads none of them. */
  datatype NodeStageVolumeRequest = NodeStageVolumeRequest(volumeId: string, stagingTargetPath: string)

  datatype NodeStageVolumeResponse = NodeStageVolumeResponse

  /** The identifying fields of an unstage request; the handler reads none of them. */
  datatype NodeUnstageVolumeRequest = NodeUnstageVolumeRequest(volumeId: string, stagingTargetPath: string)

  datatype NodeUnstageVolumeResponse = NodeUnstageVolumeResponse

  /** The node RPC kinds a plugin can advertise (NodeServiceCapability.RPC.Type). */
  datatype NodeRpcType =
    | UnknownRpc
    | StageUnstageVolume
    | GetVolumeStats
    | ExpandVolume

  datatype NodeServiceCapability = Rpc(rpcType: NodeRpcType)

  datatype Topology = Topology(segments: map<string, string>)

  datatype NodeGetInfoResponse = NodeGetInfoResponse(nodeId: string, accessibleTopology: Topology)

  /** The one node this driver reports, and the topology key it is reported under. */
  const NodeId: string := "node1"
  const TopologyKey: string := "topology.hostpath.csi/node"

  /**
    NodePublishVolume: refuse unless the backing directory can be found, then
    link the target to it. The source's check (node.go:25) lets ENOTDIR pass;
    this definition refuses every failed lookup, which is what the check is
    for (see NodePublishVolumeAsWritten).
  */
  function NodePublishVolume(fs: FileSystem, req: NodePublishVolumeRequest): (r: Step<NodePublishVolumeResponse>)
    ensures !Lstat(fs, BackingPath(req.volumeId)).Found? ==> r == Step(Failure(SourceMissing), fs)
    ensures var target := ParsePath(req.targetPath);
      r.result.Success? <==>
        Lstat(fs, BackingPath(req.volumeId)).Found? && target != [] && MkdirAll(fs, Parent(target)).Some?
    ensures var target := ParsePath(req.targetPath);
      r.result.Success? ==>
        && Lstat(r.fs, Parent(target)) == Found(Dir)
        && Lstat(r.fs, target) == Found(Symlink(BackingPathText(req.volumeId)))
    ensures var target := ParsePath(req.targetPath);
      (Lstat(fs, BackingPath(req.volumeId)).Found? && Lstat(fs, target) == Found(Symlink(BackingPathText(req.volumeId))))
        ==> r == Step(Success(NodePublishVolumeResponse), fs)
    ensures var target := ParsePath(req.targetPath);
      forall q :: q in fs && !(target <= q) ==> q in r.fs && r.fs[q] == fs[q]
    ensures var target := ParsePath(req.targetPath);
      forall q :: q in r.fs && q !in fs ==> q == target || (q <= Parent(target) && r.fs[q] == Dir)
    ensures var target := ParsePath(req.targetPath);
      forall q :: q in fs && q in r.fs && q != target ==> r.fs[q] == fs[q]
    ensures r.result.Failure? ==> r.fs == fs
    ensures WellFormed(fs) ==> WellFormed(r.fs)
  {
    if !Lstat(fs, BackingPath(req.volumeId)).Found? then Step(Failure(SourceMissing), fs)
    else LinkTarget(fs, BackingPathText(req.volumeId), ParsePath(req.targetPath))
  }

  /**
    NodePublishVolume as the source writes it: only ENOENT from the lookup of
    the backing directory is refused (node.go:25).
  */
  function NodePublishVolumeAsWritten(fs: FileSystem, req: NodePublishVolumeRequest): (r: Step<NodePublishVolumeResponse>)
    ensures Lstat(fs, BackingPath(req.volumeId)).NotExist? ==> r == Step(Failure(SourceMissing), fs)
    ensures var target := ParsePath(req.targetPath);
      r.result.Success? <==>
        !Lstat(fs, BackingPath(req.volumeId)).NotExist? && target != [] && MkdirAll(fs, Parent(target)).Some?
    ensures r.result.Failure? ==> r.fs == fs
  {
    if Lstat(fs, BackingPath(req.volumeId)).NotExist? then Step(Failure(SourceMissing), fs)
    else LinkTarget(fs, BackingPathText(req.volumeId), ParsePath(req.targetPath))
  }

  /**
    Everything publish does after the source check (node.go:29-60): make the
    target's parent, keep a link that already has the right text, otherwise
    remove whatever is at the target and create the link.
  */
  function LinkTarget(fs: FileSystem, source: string, target: Path): (r: Step<NodePublishVolumeResponse>)
    ensures r.result.Success? <==> target != [] && MkdirAll(fs, Parent(target)).Some?
    ensures r.result.Success? ==> Lstat(r.fs, Parent(target)) == Found(Dir) && Lstat(r.fs, target) == Found(Symlink(source))
    ensures Lstat(fs, target) == Found(Symlink(source)) ==> r == Step(Success(NodePublishVolumeResponse), fs)
    ensures forall q :: q in fs && !(target <= q) ==> q in r.fs && r.fs[q] == fs[q]
    ensures forall q :: q in r.fs && q !in fs ==> q == target || (q <= Parent(target) && r.fs[q] == Dir)
    ensures forall q :: q in fs && q in r.fs && q != target ==> r.fs[q] == fs[q]
    ensures r.result.Failure? ==> r.fs == fs
    ensures WellFormed(fs) ==> WellFormed(r.fs)
  {
    match MkdirAll(fs, Parent(target))
    case None => Step(Failure(ParentDirFailed), fs)
    case Some(fs1) =>
      match Lstat(fs1, target)
      case Found(n) =>
        if n == Symlink(source) then Step(Success(NodePublishVolumeResponse), fs1)
        else (
          match RemoveAll(fs1, target)
          case None => Step(Failure(RemoveTargetFailed), fs1)
          case Some(fs2) =>
            LstatOutsideRemoval(fs1, fs2, target, Parent(target));
            CreateLink(fs2, source, target))
      case _ => CreateLink(fs1, source, target)
  }

  /** The os.Symlink call of node.go:55. */
  function CreateLink(fs: FileSystem, source: string, target: Path): (r: Step<NodePublishVolumeResponse>)
    ensures r.result.Success? <==> CreateEntry(fs, target, Symlink(source)).Some?
    ensures r.result.Success? ==> r.fs == fs[target := Symlink(source)]
    ensures r.result.Failure? ==> r.fs == fs
  {
    match CreateEntry(fs, target, Symlink(source))
    case None => Step(Failure(SymlinkFailed), fs)
    case Some(fs') => Step(Success(NodePublishVolumeResponse), fs')
  }

  /**
    Publishing twice is publishing once exactly when the target does not lie
    strictly above the backing directory. Above it, the first publish replaces
    the backing directory's ancestor by the link, so the retry's lookup of the
    backing directory fails with ENOTDIR and the corrected check refuses it.
  */
  lemma NodePublishVolumeIdempotent(fs: FileSystem, req: NodePublishVolumeRequest)
    requires NodePublishVolume(fs, req).result.Success?
    ensures var r := NodePublishVolume(fs, req);
      NodePublishVolume(r.fs, req) == r <==> !(ParsePath(req.targetPath) < BackingPath(req.volumeId))
    ensures var r := NodePublishVolume(fs, req);
      ParsePath(req.targetPath) < BackingPath(req.volumeId) ==> NodePublishVolume(r.fs, req) == Step(Failure(SourceMissing), r.fs)
  {
    var target, backing := ParsePath(req.targetPath), BackingPath(req.volumeId);
    var fs1 := NodePublishVolume(fs, req).fs;
    if target < backing {
      LstatBelowNonDir(fs1, target, backing);
    } else if target != backing {
      forall q | q <= backing && q != []
        ensures Entry(fs, q) == Entry(fs1, q)
      {
        LstatFoundAlong(fs, q, backing);
        if target <= q {
          PrefixTransitive(target, q, backing);
        }
      }
      LstatFrame(fs, fs1, backing);
    }
  }

  /** The source's check and the corrected one differ only when the backing lookup fails with ENOTDIR. */
  lemma NodePublishVolumeAsWrittenAgrees(fs: FileSystem, req: NodePublishVolumeRequest)
    ensures !Lstat(fs, BackingPath(req.volumeId)).NotDir? ==> NodePublishVolumeAsWritten(fs, req) == NodePublishVolume(fs, req)
    ensures Lstat(fs, BackingPath(req.volumeId)).NotDir? ==> NodePublishVolume(fs, req).result.Failure?
  {
  }

  /**
    Publishing twice is publishing once, for publish as the source writes it,
    wherever the target lies: a retry finds the link it made, even when that
    link now stands in the way of the backing directory.
  */
  lemma NodePublishVolumeAsWrittenIdempotent(fs: FileSystem, req: NodePublishVolumeRequest)
    requires NodePublishVolumeAsWritten(fs, req).result.Success?
    ensures var r := NodePublishVolumeAsWritten(fs, req);
      NodePublishVolumeAsWritten(r.fs, req) == r
  {
    var target, backing := ParsePath(req.targetPath), BackingPath(req.volumeId);
    var r := NodePublishVolumeAsWritten(fs, req);
    assert Lstat(r.fs, target) == Found(Symlink(BackingPathText(req.volumeId)));
    if target < backing {
      LstatBelowNonDir(r.fs, target, backing);
    } else if target != backing {
      forall q | q <= backing && q in fs
        ensures q in r.fs && r.fs[q] == fs[q]
      {
        if target <= q {
          PrefixTransitive(target, q, backing);
        }
      }
      LstatKeptAlong(fs, r.fs, backing);
    }
  }

  /**
    A target that exists but is not the right link (another link, a file, a
    directory) is removed with everything below it and replaced by the link.
  */
  lemma NodePublishVolumeReplacesTarget(fs: FileSystem, req: NodePublishVolumeRequest)
    requires Lstat(fs, BackingPath(req.volumeId)).Found?
    requires ParsePath(req.targetPath) != []
    requires Lstat(fs, ParsePath(req.targetPath)).Found?
    requires Lstat(fs, ParsePath(req.targetPath)).node != Symlink(BackingPathText(req.volumeId))
    ensures var target := ParsePath(req.targetPath);
      && NodePublishVolume(fs, req).result.Success?
      && NodePublishVolume(fs, req).fs == RemoveSubtree(fs, target)[target := Symlink(BackingPathText(req.volumeId))]
  {
  }

  /**
    Publish changes nothing in a subtree that neither holds the target nor
    lies below it; in particular not the backing directory of any volume
    whose backing path is disjoint from the target.
  */
  lemma NodePublishVolumeKeepsDisjointSubtree(fs: FileSystem, req: NodePublishVolumeRequest, b: Path)
    requires !(ParsePath(req.targetPath) <= b) && !(b <= ParsePath(req.targetPath))
    ensures SubtreeUnchanged(fs, NodePublishVolume(fs, req).fs, b)
  {
    var target := ParsePath(req.targetPath);
    var r := NodePublishVolume(fs, req);
    forall q | b <= q
      ensures Entry(fs, q) == Entry(r.fs, q)
    {
      if target <= q {
        PrefixesComparable(target, b, q);
      }
      if q in r.fs && q !in fs && q != target {
        PrefixTransitive(b, q, Parent(target));
        PrefixTransitive(b, Parent(target), target);
      }
    }
  }

  /**
    The source's check lets a lookup that fails with ENOTDIR through: when
    something on the way to the backing directory is not a directory, the
    as-written publish still succeeds and leaves a link to a backing directory
    that cannot be reached, where the check means to refuse.
  */
  lemma NodePublishVolumeAsWrittenAcceptsMissingSource(fs: FileSystem, req: NodePublishVolumeRequest)
    requires Lstat(fs, BackingPath(req.volumeId)).NotDir?
    requires ParsePath(req.targetPath) != [] && MkdirAll(fs, Parent(ParsePath(req.targetPath))).Some?
    requires !(ParsePath(req.targetPath) <= BackingPath(req.volumeId))
    ensures var r := NodePublishVolumeAsWritten(fs, req);
      && r.result.Success?
      && Lstat(r.fs, BackingPath(req.volumeId)).NotDir?
      && Lstat(r.fs, ParsePath(req.targetPath)) == Found(Symlink(BackingPathText(req.volumeId)))
    ensures NodePublishVolume(fs, req) == Step(Failure(SourceMissing), fs)
  {
    var target, backing := ParsePath(req.targetPath), BackingPath(req.volumeId);
    var r := NodePublishVolumeAsWritten(fs, req);
    forall q | q <= backing && q in fs
      ensures q in r.fs && r.fs[q] == fs[q]
    {
      if target <= q {
        PrefixTransitive(target, q, backing);
      }
    }
    LstatKeptAlong(fs, r.fs, backing);
  }

  /** With a regular file at /tmp, the lookup of the backing directory of volume "v" fails with ENOTDIR. */
  lemma BackingUnderFileIsNotDir(fs: FileSystem)
    requires ["tmp"] in fs && fs[["tmp"]] == File
    ensures Lstat(fs, BackingPath("v")).NotDir?
  {
    BackingPathOfName("v");
    var tmp: Path := ["tmp"];
    var csi: Path := tmp + ["csi"];
    var hostpath: Path := csi + ["hostpath"];
    var backing: Path := hostpath + ["v"];
    assert BackingPath("v") == backing;
    assert Parent(tmp) == [];
    assert Parent(csi) == tmp && Parent(hostpath) == csi && Parent(backing) == hostpath;
    assert Lstat(fs, tmp) == Found(File);
    assert Lstat(fs, csi) == NotDir;
    assert Lstat(fs, hostpath) == NotDir;
  }

  /**
    The finding on one input: with a regular file at /tmp, publishing volume
    "v" at /mnt succeeds as written and leaves /mnt linked to a backing
    directory that cannot be reached, while the corrected publish refuses.
  */
  lemma PublishOverFileAtTmp(fs: FileSystem, req: NodePublishVolumeRequest)
    requires fs == map[["tmp"] := File]
    requires req.volumeId == "v" && req.targetPath == "/mnt"
    ensures var r := NodePublishVolumeAsWritten(fs, req);
      && r.result.Success?
      && Lstat(r.fs, ["mnt"]) == Found(Symlink(BackingPathText(req.volumeId)))
      && Lstat(r.fs, BackingPath(req.volumeId)).NotDir?
    ensures NodePublishVolume(fs, req) == Step(Failure(SourceMissing), fs)
  {
    BackingUnderFileIsNotDir(fs);
    assert ParsePath(req.targetPath) == ["mnt"] by {
      assert req.targetPath[1..] == "mnt";
      ParseName("mnt");
    }
    assert MkdirAll(fs, Parent(["mnt"])) == Some(fs);
    BackingPathOfName(req.volumeId);
    assert !(["mnt"] <= BackingPath(req.volumeId)) by {
      assert BackingPath(req.volumeId)[0] == "tmp";
    }
    NodePublishVolumeAsWrittenAcceptsMissingSource(fs, req);
  }

  /**
    NodeUnpublishVolume: remove the target if it is a symbolic link, whatever
    it points to; succeed without change if it is missing or something else;
    fail only when the lookup itself fails with another error.
  */
  function NodeUnpublishVolume(fs: FileSystem, req: NodeUnpublishVolumeRequest): (r: Step<NodeUnpublishVolumeResponse>)
    ensures var target := ParsePath(req.targetPath);
      (Lstat(fs, target).Found? && Lstat(fs, target).node.Symlink?) ==>
        r.result.Success? && Lstat(r.fs, target).NotExist?
    ensures var target := ParsePath(req.targetPath);
      (Lstat(fs, target).Found? && Lstat(fs, target).node.Symlink? && WellFormed(fs)) ==>
        r.fs == fs - {target}
    ensures var target := ParsePath(req.targetPath);
      (Lstat(fs, target).Found? && !Lstat(fs, target).node.Symlink?) ==>
        r == Step(Success(NodeUnpublishVolumeResponse), fs)
    ensures Lstat(fs, ParsePath(req.targetPath)).NotExist? ==> r == Step(Success(NodeUnpublishVolumeResponse), fs)
    ensures Lstat(fs, ParsePath(req.targetPath)).NotDir? ==> r == Step(Failure(CheckTargetFailed), fs)
    ensures var target := ParsePath(req.targetPath);
      forall q :: q in fs && !(target <= q) ==> q in r.fs && r.fs[q] == fs[q]
    ensures forall q :: q in r.fs ==> q in fs && r.fs[q] == fs[q]
    ensures WellFormed(fs) ==> WellFormed(r.fs)
  {
    var target := ParsePath(req.targetPath);
    match Lstat(fs, target)
    case Found(n) =>
      if n.Symlink? then (
        match RemoveAll(fs, target)
        case None => Step(Failure(RemoveSymlinkFailed), fs)
        case Some(fs') =>
          RemovedLinkIsGone(fs, fs', target);
          Step(Success(NodeUnpublishVolumeResponse), fs'))
      else Step(Success(NodeUnpublishVolumeResponse), fs)
    case NotExist => Step(Success(NodeUnpublishVolumeResponse), fs)
    case NotDir => Step(Failure(CheckTargetFailed), fs)
  }

  /** Removing a found symbolic link leaves nothing at its path, and in a well-formed filesystem nothing else goes. */
  lemma RemovedLinkIsGone(fs: FileSystem, fs': FileSystem, target: Path)
    requires Lstat(fs, target).Found? && Lstat(fs, target).node.Symlink?
    requires RemoveAll(fs, target) == Some(fs')
    ensures Lstat(fs', target).NotExist?
    ensures WellFormed(fs) ==> fs' == fs - {target}
  {
    LstatRemoveSubtree(fs, target, Parent(target));
    if WellFormed(fs) {
      assert fs' == RemoveSubtree(fs, target);
      forall q | q in fs
        ensures q in fs' <==> q != target
      {
        if q != target && target <= q {
          WellFormedAncestorIsDir(fs, target, q);
        }
      }
      assert fs'.Keys == (fs - {target}).Keys;
    }
  }

  /** Unpublishing twice is unpublishing once. */
  lemma NodeUnpublishVolumeIdempotent(fs: FileSystem, req: NodeUnpublishVolumeRequest)
    requires NodeUnpublishVolume(fs, req).result.Success?
    ensures NodeUnpublishVolume(NodeUnpublishVolume(fs, req).fs, req) == NodeUnpublishVolume(fs, req)
  {
  }

  /** Unpublish never removes or changes an entry that is not a symbolic link. */
  lemma NodeUnpublishVolumeKeepsNonLinks(fs: FileSystem, req: NodeUnpublishVolumeRequest)
    requires WellFormed(fs)
    ensures var r := NodeUnpublishVolume(fs, req);
      forall q :: q in fs && !fs[q].Symlink? ==> q in r.fs && r.fs[q] == fs[q]
  {
  }

  /** Unpublish changes nothing in a subtree that neither holds the target nor lies below it. */
  lemma NodeUnpublishVolumeKeepsDisjointSubtree(fs: FileSystem, req: NodeUnpublishVolumeRequest, b: Path)
    requires !(ParsePath(req.targetPath) <= b) && !(b <= ParsePath(req.targetPath))
    ensures SubtreeUnchanged(fs, NodeUnpublishVolume(fs, req).fs, b)
  {
    var target := ParsePath(req.targetPath);
    var r := NodeUnpublishVolume(fs, req);
    forall q | b <= q
      ensures Entry(fs, q) == Entry(r.fs, q)
    {
      if target <= q {
        PrefixesComparable(target, b, q);
      }
    }
  }

  /** Staging is not used by this driver: the call succeeds and changes nothing. */
  function NodeStageVolume(fs: FileSystem, req: NodeStageVolumeRequest): (r: Step<NodeStageVolumeResponse>)
    ensures r.result.Success? && r.fs == fs
  {
    Step(Success(NodeStageVolumeResponse), fs)
  }

  /** Unstaging is not used by this driver: the call succeeds and changes nothing. */
  function NodeUnstageVolume(fs: FileSystem, req: NodeUnstageVolumeRequest): (r: Step<NodeUnstageVolumeResponse>)
    ensures r.result.Success? && r.fs == fs
  {
    Step(Success(NodeUnstageVolumeResponse), fs)
  }

  /** The node advertises a single RPC capability of kind UNKNOWN: a one-element list, not an empty one. */
  function NodeGetCapabilities(): (caps: seq<NodeServiceCapability>)
    ensures |caps| == 1 && caps[0].rpcType == UnknownRpc
  {
    [Rpc(UnknownRpc)]
  }

  /** Staging is not advertised, and the staging calls do nothing. */
  lemma StagingNotAdvertised(fs: FileSystem, stage: NodeStageVolumeRequest, unstage: NodeUnstageVolumeRequest)
    ensures Rpc(StageUnstageVolume) !in NodeGetCapabilities()
    ensures NodeStageVolume(fs, stage).fs == fs && NodeUnstageVolume(fs, unstage).fs == fs
  {
  }

  /** The node reports itself as "node1", in the topology segment keyed "topology.hostpath.csi/node". */
  function NodeGetInfo(): (info: NodeGetInfoResponse)
    ensures info.nodeId == NodeId
    ensures info.accessibleTopology.segments.Keys == {TopologyKey}
    ensures info.accessibleTopology.segments[TopologyKey] == info.nodeId
  {
    NodeGetInfoResponse(NodeId, Topology(map[TopologyKey := NodeId]))
  }
}

=== FILE: paths.dfy ===
/**
  Host paths as sequences of components. The driver builds and receives paths
  as strings; `ParsePath` splits such a string on separators and drops the
  empty components. `.` and `..` stay ordinary names, and text without a
  leading separator is read from the root.
*/
module Paths {

  /** A path from the root; the empty sequence is the root "/" itself. */
  type Path = seq<string>

  /** The directory holding `p`; the root is its own parent, as with filepath.Dir("/"). */
  function Parent(p: Path): (q: Path)
    ensures p != [] ==> |q| == |p| - 1 && q <= p
    ensures p == [] ==> q == []
  {
    if p == [] then [] else p[..|p| - 1]
  }

  /** Every component is a non-empty name without a separator. */
  predicate ValidComponents(p: Path)
  {
    forall i :: 0 <= i < |p| ==> p[i] != [] && '/' !in p[i]
  }

  /** Length of the name at the front of `s`: the run of characters before the first separator. */
  function NameLength(s: string): (n: nat)
    ensures n <= |s|
    ensures forall i :: 0 <= i < n ==> s[i] != '/'
    ensures n < |s| ==> s[n] == '/'
  {
    if s == [] || s[0] == '/' then 0 else 1 + NameLength(s[1..])
  }

  /** The components named by the path text `s`. */
  function ParsePath(s: string): (p: Path)
    ensures ValidComponents(p)
    decreases |s|
  {
    if s == [] then []
    else if s[0] == '/' then ParsePath(s[1..])
    else
      var n := NameLength(s);
      [s[..n]] + ParsePath(s[n..])
  }

  /** The path text of `p`: every component preceded by one separator. */
  function Join(p: Path): string
  {
    if p == [] then [] else "/" + p[0] + Join(p[1..])
  }

  /** A name followed by nothing or by a separator is read whole. */
  lemma NameLengthOfName(c: string, t: string)
    requires '/' !in c
    requires t == [] || t[0] == '/'
    ensures NameLength(c + t) == |c|
  {
    assert forall i :: 0 <= i < |c| ==> (c + t)[i] == c[i] && c[i] in c;
    assert t != [] ==> (c + t)[|c|] == '/';
  }

  /** Text that joins `p` and then continues after a separator parses to `p` followed by the rest. */
  lemma {:induction false} ParseJoinThen(p: Path, b: string)
    requires ValidComponents(p)
    ensures ParsePath(Join(p) + "/" + b) == p + ParsePath(b)
    decreases |p|
  {
    if p == [] {
      assert Join(p) + "/" + b == "/" + b;
      assert ("/" + b)[1..] == b;
    } else {
      var rest := Join(p[1..]) + "/" + b;
      var s := Join(p) + "/" + b;
      assert s == "/" + p[0] + rest;
      assert s[1..] == p[0] + rest;
      assert ValidComponents(p[1..]) by {
        forall i | 0 <= i < |p[1..]| ensures p[1..][i] != [] && '/' !in p[1..][i] {
          assert p[1..][i] == p[i + 1];
        }
      }
      assert rest[0] == '/';
      NameLengthOfName(p[0], rest);
      assert s[1..][..|p[0]|] == p[0];
      assert s[1..][|p[0]|..] == rest;
      assert p[0][0] != '/' by {
        assert p[0] != [];
      }
      ParseJoinThen(p[1..], b);
      assert [p[0]] + p[1..] == p;
    }
  }

  /** A single name parses to itself. */
  lemma ParseName(c: string)
    requires c != [] && '/' !in c
    ensures ParsePath(c) == [c]
  {
    NameLengthOfName(c, []);
    assert c + [] == c;
    assert c[..|c|] == c;
    assert c[|c|..] == [];
  }

  /** A prefix of a path is a prefix of every path it leads to. */
  lemma PrefixTransitive(a: Path, b: Path, c: Path)
    requires a <= b && b <= c
    ensures a <= c
  {
  }

  /** Two prefixes of the same path are comparable. */
  lemma PrefixesComparable(a: Path, b: Path, c: Path)
    requires a <= c && b <= c
    ensures a <= b || b <= a
  {
    if |a| <= |b| {
      assert a == c[..|a|] == b[..|a|];
    } else {
      assert b == c[..|b|] == a[..|b|];
    }
  }
}

=== FILE: results.dfy ===
/** Failure-carrying wrappers shared by the model. */
module Results {

  /** The outcome of a host call whose error detail the model does not keep. */
  datatype Option<+T> = None | Some(value: T)

  /** The outcome of an RPC: a response, or the error the handler returns. */
  datatype Result<+T, +E> = Success(value: T) | Failure(error: E)
}
